=== FILE: README.md ===
# Calculator worker: a Dafny model

This project models the per-connection worker of a small TCP calculator service
(`ServerWorker.java`). A client connects, receives a version banner, and then sends commands:
`OP` (or `NUMERIC_OPERATION`) opens an operation block of reverse-Polish lines fed to a stack
evaluator until a blank line, `ACTIVE` does nothing, `QUIT` ends the session, and anything else
is a protocol error. Every error is terminal: the worker clears its stack, sends one structured
`ERROR` block and closes the connection.

The model is functional. The socket becomes the list of input lines and the list of replies
written back (`Session.Reply`, rendered to wire text by `Session.Render`). The evaluator is a
step function from a stack (`seq<real>`, top last) and a line to a new stack, an error, or a
crash. The session is a recursive fold over the input lines (`Session.RunCommands`). Module
`Worker` writes the same loop imperatively, with nested `while` loops as in Java, and proves it
equal to the fold.

Modules, one per concern:

- `Opt` (option.dfy): the option type, standing for Java's nullable references.
- `Lines` (lines.dfy): newline framing of protocol lines, as a join and a split that undo each other.
- `Decimal` (decimal.dfy): Java's `%03d` for error codes, with ASCII digits, and the parser that reads it back.
- `Errors` (errors.dfy): the inner class `Error`. This covers code-to-name mapping, the wire block and a decoder for it.
- `Evaluator` (evaluator.dfy): `requireStack`, `stackOp2` and `parseOpLine`.
- `Session` (session.dfy): `printResult` and the command loop of `run`.
- `SessionProperties` (session_properties.dfy): block evaluation, reporting, commands, termination.
- `Worker` (worker.dfy): the imperative `run`.
- `Scenarios` (scenarios.dfy): concrete conversations.

Points of the code's behaviour that a reader might not expect:

- `^` computes `Math.pow(top, second)`: the value pushed last is the base.
- Building an error clears the stack (`stack.clear()` in the `Error` constructor, line 27), so
  every error leaves it empty.
- After `rst`, the operator `/` does not give "too few arguments". It crashes, because it peeks
  the empty stack before the arity check (`Evaluator.ResetThenOperator`).
- Two paths end in an uncaught `EmptyStackException`, not in a protocol error. One is `/` on an
  empty stack. The other is a block whose last line is `rst`, because `printResult` then peeks
  an empty stack. Both are the explicit outcome `Crash`/`Crashed`. No error block is sent, and
  the replies already flushed stand.

## Model

| member | source | states |
|---|---|---|
| Errors.MakeError | ServerMultiThread/src/main/java/ch/heigvd/api/calc/ServerWorker.java:23-25 | the error keeps its code; an empty description is stored as no description, any other is kept |
| Errors.ErrName | ServerMultiThread/src/main/java/ch/heigvd/api/calc/ServerWorker.java:31-47 | each symbolic name is returned exactly on its range: 0, [10,100), [200,210), [210,220), [220,230), [230,300), and "Unknown error" on every other integer, so the ranges are disjoint and cover all codes |
| Decimal.Pad3 | ServerMultiThread/src/main/java/ch/heigvd/api/calc/ServerWorker.java:50 | `%03d` gives exactly three digits for codes 0..999, all digits and longer for larger codes, and a '-' followed by digits, at least three characters in all, for negative codes; zero fill never goes past the width, so a rendering longer than three characters starts (after any sign) with a non-zero digit |
| Decimal.Pad3RoundTrip | ServerMultiThread/src/main/java/ch/heigvd/api/calc/ServerWorker.java:50 | the padded code reads back as the same integer, for every integer |
| Errors.Pad3OfRaisedCodes | ServerMultiThread/src/main/java/ch/heigvd/api/calc/ServerWorker.java:50 | the codes raised (0, 200, 210, 220) render as "000", "200", "210", "220" |
| Errors.Pad3OfOtherCodes | ServerMultiThread/src/main/java/ch/heigvd/api/calc/ServerWorker.java:50 | 7 renders as "007", -5 as "-05", and 1234 stays "1234" |
| Errors.ErrorWire | ServerMultiThread/src/main/java/ch/heigvd/api/calc/ServerWorker.java:49-55 | the sent text is "ERROR\n", the padded code, "\n", the name, "\n", the detail or nothing, "\n", then the blank line "\n" |
| Errors.ErrorWireRoundTrip | ServerMultiThread/src/main/java/ch/heigvd/api/calc/ServerWorker.java:49-55 | a client splitting the error block into lines recovers the code and the detail of every error whose detail is one non-empty line |
| Errors.ErrorWireInjective | ServerMultiThread/src/main/java/ch/heigvd/api/calc/ServerWorker.java:49-55 | two such errors send the same text exactly when they are the same error |
| Errors.DivideByZeroWire | ServerMultiThread/src/main/java/ch/heigvd/api/calc/ServerWorker.java:49-55 | a division by zero is sent as "ERROR\n000\ndivideByZero\n\n\n" |
| Errors.WrongMessageTypeWire | ServerMultiThread/src/main/java/ch/heigvd/api/calc/ServerWorker.java:49-55 | error 200 without detail is sent as "ERROR\n200\nwrongMessageTypeSyntax\n\n\n" |
| Evaluator.RequireStack | ServerMultiThread/src/main/java/ch/heigvd/api/calc/ServerWorker.java:58-62 | no error exactly when at least n values are stacked; otherwise error 220 with no detail |
| Evaluator.OperatorOf | ServerMultiThread/src/main/java/ch/heigvd/api/calc/ServerWorker.java:75-101 | a token names an operator exactly when it is one of + - * / % ^ rst; "rst" is the reset and "/" the division |
| Evaluator.StackOp2 | ServerMultiThread/src/main/java/ch/heigvd/api/calc/ServerWorker.java:64-68 | fails with error 220 exactly when fewer than two values are stacked (a failure carries no stack, because the error clears it); otherwise the depth drops by one, everything below the top two is unchanged, the new top is op(top, second), and a result is due |
| Evaluator.Step | ServerMultiThread/src/main/java/ch/heigvd/api/calc/ServerWorker.java:70-104 | a literal is pushed on top with the rest unchanged and no result due; every successful non-literal line makes a result due; it crashes exactly on "/" with an empty stack; "/" on a zero top is divideByZero before any arity check; a binary operator on a short stack is error 220; on a deep enough stack the depth drops by one and the values below the top two stay; "rst" empties the stack and makes a result due; other tokens are error 210 with detail "Problem with : '<line>'"; errors carry only the codes 0, 210 and 220 |
| Evaluator.OperandOrder | ServerMultiThread/src/main/java/ch/heigvd/api/calc/ServerWorker.java:76-95 | with t on top and s below it, the new top is t+s, t-s, t*s, t%s, pow(t,s), and s/t for "/" when t is not zero |
| Evaluator.BinaryStep | ServerMultiThread/src/main/java/ch/heigvd/api/calc/ServerWorker.java:64-68 | a binary operator line on a stack with t on top of s replaces those two values by the operator applied to (t, s), keeps everything below, and makes a result due |
| Evaluator.ResetThenOperator | ServerMultiThread/src/main/java/ch/heigvd/api/calc/ServerWorker.java:85-98 | after "rst", + - * % ^ give error 220, but "/" crashes on the empty stack |
| Session.ReplyWire | ServerMultiThread/src/main/java/ch/heigvd/api/calc/ServerWorker.java:106-112 | the greeting is "VERSION\n1.0.0\n\n", a result is "RESULT\n" or "PARTIAL_RESULT\n" then the value and "\n\n", an error is its error block |
| Session.Report | ServerMultiThread/src/main/java/ch/heigvd/api/calc/ServerWorker.java:106-112 | a result exists exactly when the stack is not empty; its value is the top of the stack (`peek`, which does not pop it); it is partial exactly when more than one value is stacked |
| Session.FeedBlock | ServerMultiThread/src/main/java/ch/heigvd/api/calc/ServerWorker.java:166-169 | a finished block leaves a suffix of its input; if it met a blank line, that line is the first blank line, it was consumed and the rest is exactly the input after it; if it met the end of input, nothing is left and no line read was blank |
| Session.RunCommands | ServerMultiThread/src/main/java/ch/heigvd/api/calc/ServerWorker.java:162-189 | replies are only appended and never include a second greeting; an error block is sent exactly when the session ends on an error, once, as the last reply, and the stack is then empty, as the `Error` constructor clears it (line 27) |
| Session.Serve | ServerMultiThread/src/main/java/ch/heigvd/api/calc/ServerWorker.java:155-189 | the first reply is the greeting and no other is; an errored session sent exactly one error block, last; every other ending sent none |
| Session.Output | ServerMultiThread/src/main/java/ch/heigvd/api/calc/ServerWorker.java:157-158 | the text sent always starts with "VERSION\n1.0.0\n\n" |
| SessionProperties.FeedBlockTerminated | ServerMultiThread/src/main/java/ch/heigvd/api/calc/ServerWorker.java:166-169 | reading a block up to its blank line is the evaluator folded over the lines before it, and the lines after it are left unread |
| SessionProperties.FeedBlockAtEnd | ServerMultiThread/src/main/java/ch/heigvd/api/calc/ServerWorker.java:166-169 | a block cut short by the end of input is the same fold over all remaining lines |
| SessionProperties.PendingIffLastLineIsOperator | ServerMultiThread/src/main/java/ch/heigvd/api/calc/ServerWorker.java:166-170 | after a block evaluates, a result is due exactly when its last line was not a literal |
| SessionProperties.LiteralsReportNothing | ServerMultiThread/src/main/java/ch/heigvd/api/calc/ServerWorker.java:70-73 | a block of literals only pushes them in order and leaves no result due |
| SessionProperties.OperationBlock | ServerMultiThread/src/main/java/ch/heigvd/api/calc/ServerWorker.java:164-173 | after a block, a result is sent exactly when its last line was an operator; it is partial exactly when the depth is above 1; its value is the top, which is not popped; the next command starts on that stack; an empty stack at that point (a block ending in rst) crashes the worker |
| SessionProperties.FailingBlock | ServerMultiThread/src/main/java/ch/heigvd/api/calc/ServerWorker.java:183-189 | a block in which a line fails ends the session with that error: one error block, and the stack emptied by the `Error` constructor (line 27) |
| SessionProperties.CrashingBlock | ServerMultiThread/src/main/java/ch/heigvd/api/calc/ServerWorker.java:167-168 | a block in which a line throws the uncaught `EmptyStackException` ends the session at once: nothing more is sent and no later line is read |
| SessionProperties.Commands | ServerMultiThread/src/main/java/ch/heigvd/api/calc/ServerWorker.java:174-180 | ACTIVE changes nothing, QUIT stops with nothing sent, any other unknown command is error 200 with no detail, which ends the session with an empty stack (line 27) |
| SessionProperties.FeedBlockIgnoresLaterInput | ServerMultiThread/src/main/java/ch/heigvd/api/calc/ServerWorker.java:166-169 | a block that stopped before the end of input reads the same lines whatever follows |
| SessionProperties.NothingReadAfterStop | ServerMultiThread/src/main/java/ch/heigvd/api/calc/ServerWorker.java:162-189 | once the command loop ends on QUIT or an error, appending input changes nothing |
| SessionProperties.ServeStopsReading | ServerMultiThread/src/main/java/ch/heigvd/api/calc/ServerWorker.java:155-189 | for a whole connection that quit or failed, later input changes neither replies nor ending |
| Worker.ReadBlock | ServerMultiThread/src/main/java/ch/heigvd/api/calc/ServerWorker.java:166-169 | the Java inner loop computes the block outcome of the functional reading |
| Worker.Run | ServerMultiThread/src/main/java/ch/heigvd/api/calc/ServerWorker.java:144-189 | the Java loop, with its QUIT flag and early exits for errors and crashes, computes exactly the functional session |
| Scenarios.BinaryBlockSession | ServerMultiThread/src/main/java/ch/heigvd/api/calc/ServerWorker.java:162-173 | a connection sending one block of two literals x, y and a binary operator gets the greeting and one final RESULT, the operator applied to (y, x), and that value stays stacked |
| Scenarios.SubtractionIsReversed | ServerMultiThread/src/main/java/ch/heigvd/api/calc/ServerWorker.java:79-80 | OP 10 3 - reports RESULT -7, which is 3 - 10 |
| Scenarios.DivisionInPushOrder | ServerMultiThread/src/main/java/ch/heigvd/api/calc/ServerWorker.java:85-89 | OP 6 2 / reports RESULT 3 |
| Scenarios.DivisionText | ServerMultiThread/src/main/java/ch/heigvd/api/calc/ServerWorker.java:106-112 | the full text of that conversation is the greeting, then "RESULT\n", the value and "\n\n" |
| Scenarios.DivisionByZeroEndsSession | ServerMultiThread/src/main/java/ch/heigvd/api/calc/ServerWorker.java:85-87 | OP 5 0 / sends the greeting and one divideByZero error block without detail, and the session ends on that error with an empty stack |
| Scenarios.DivisionByZeroText | ServerMultiThread/src/main/java/ch/heigvd/api/calc/ServerWorker.java:49-55 | the full text of that conversation is the greeting followed by "ERROR\n000\ndivideByZero\n\n\n" |
| Scenarios.GarbageCommand | ServerMultiThread/src/main/java/ch/heigvd/api/calc/ServerWorker.java:179-180 | GARBAGE gives the greeting, then "ERROR\n200\nwrongMessageTypeSyntax\n\n\n" |
| Scenarios.QuitAtOnce | ServerMultiThread/src/main/java/ch/heigvd/api/calc/ServerWorker.java:176-178 | QUIT first sends the greeting only |
| Scenarios.LaterBlockUsesStack | ServerMultiThread/src/main/java/ch/heigvd/api/calc/ServerWorker.java:162-173 | on a stack left holding 4, the block OP 2 / reports RESULT 2 and leaves 2 stacked |
| Scenarios.StackPersistsAcrossBlocks | ServerMultiThread/src/main/java/ch/heigvd/api/calc/ServerWorker.java:162-178 | OP 4, then OP 2 /, divides the 4 left by the first block, ACTIVE changes nothing, and QUIT stops before the trailing OP |
| Scenarios.DivideEmptyStackCrashes | ServerMultiThread/src/main/java/ch/heigvd/api/calc/ServerWorker.java:85-87 | OP / on an empty stack crashes the worker on the peek of the zero test, after the greeting only, and it never reads the QUIT that follows |
| Scenarios.ResetLastCrashes | ServerMultiThread/src/main/java/ch/heigvd/api/calc/ServerWorker.java:96-112 | OP 5 rst crashes the worker in printResult after the greeting, and it never reads the QUIT that follows |

## Left out

- Decimal.Pad3: `String.format` without a locale (ServerWorker.java line 50) uses the JVM's default locale. The model assumes one whose digits are ASCII '0'-'9' (English, French, German and most others). Under an Arabic or Persian default locale Java writes the code, zero fill included, in that locale's digits. The same assumption holds for every member that states the text of an error block: `Errors.ErrorWire`, `Errors.Pad3OfRaisedCodes`, `Errors.Pad3OfOtherCodes`, `Errors.DivideByZeroWire`, `Errors.WrongMessageTypeWire`, `Scenarios.DivisionByZeroText` and `Scenarios.GarbageCommand`.
- `Server.java` is not part of this model: the port binding, the accept loop and the thread per connection are transport and concurrency plumbing.
- Socket, reader and writer construction, flushing and the repeated `close()` calls (lines 129-137, 184-215). The `IOException` path and the `clientSocket.isClosed()` test of the loop condition are also left out: nothing inside the loop closes the socket. When the session ends on QUIT, end of input or an error, the socket is closed; after a crash it is not.
- Logging and the `System.setProperty` formatter setup.
- IEEE-754 arithmetic. Values are reals, and `+ - * /` are exact. NaN, the infinities and `-0.0` do not exist here. Division is only ever applied to a non-zero top, so the infinity a double would give never arises. Java's floating `%` and `Math.pow` are opaque functions in `Evaluator.Env`. The model fixes only their operand order.
- The grammar of `Double.parseDouble` and the format of `Double.toString`. They are the `parse` and `show` fields of `Evaluator.Env`. Statements about operators assume `parse` rejects the seven operator tokens, as the Java parser does (`Evaluator.OperatorsAreNotLiterals`).
- The reference comparisons `descr == ""` and `line != ""`. They are modelled by value as "is the empty string". The `equalsIgnoreCase("")` test already gives that meaning to the block loop.
- Scenarios: the concrete conversations hold for any `parse` that reads the small numerals they use as the numbers they denote.

=== FILE: decimal.dfy ===
/** Decimal rendering of the error code as Java's `String.format("%03d", c)` writes it
    (ServerWorker.java line 50), together with the parser that reads it back. `String.format`
    without a locale uses the JVM's default locale; the digits here are ASCII '0'-'9', which is
    what Java writes under a default locale with ASCII digits (English, French, German and most
    others) but not under, say, an Arabic or Persian one. */
module Decimal {
  import opened Opt

  predicate IsDigit(ch: char) {
    '0' <= ch <= '9'
  }

  predicate AllDigits(s: string) {
    forall i :: 0 <= i < |s| ==> IsDigit(s[i])
  }

  function DigitChar(d: nat): (ch: char)
    requires d < 10
    ensures IsDigit(ch)
  {
    (d + '0' as int) as char
  }

  function DigitValue(ch: char): (d: nat)
    requires IsDigit(ch)
    ensures d < 10 && DigitChar(d) == ch
  {
    (ch as int - '0' as int) as nat
  }

  /** The shortest decimal numeral of `n` ("0" for zero). */
  function Digits(n: nat): (r: string)
    ensures |r| >= 1 && AllDigits(r)
    decreases n
  {
    if n < 10 then [DigitChar(n)] else Digits(n / 10) + [DigitChar(n % 10)]
  }

  /** Numbers below 1000 have at most three digits, larger ones more. */
  lemma {:induction false} DigitsLength(n: nat)
    ensures n < 10 ==> |Digits(n)| == 1
    ensures n < 100 ==> |Digits(n)| <= 2
    ensures n < 1000 <==> |Digits(n)| <= 3
    decreases n
  {
    if n >= 10 {
      DigitsLength(n / 10);
    }
  }

  /** The numeral of a positive number has no leading zero. */
  lemma {:induction false} DigitsLead(n: nat)
    ensures n >= 1 ==> Digits(n)[0] != '0'
    decreases n
  {
    if n >= 10 {
      DigitsLead(n / 10);
    }
  }

  /** The value of a numeral, most significant digit first. */
  function ParseDigits(s: string): nat
    requires AllDigits(s)
    decreases |s|
  {
    if |s| == 0 then 0 else ParseDigits(s[..|s| - 1]) * 10 + DigitValue(s[|s| - 1])
  }

  function Zeros(k: nat): (r: string)
    ensures |r| == k && AllDigits(r)
    ensures forall i :: 0 <= i < k ==> r[i] == '0'
  {
    if k == 0 then "" else Zeros(k - 1) + ['0']
  }

  /** `s` left-padded with '0' up to `width` characters; longer strings are kept whole. */
  function ZeroPad(s: string, width: nat): (r: string)
    ensures |r| == if |s| < width then width else |s|
    ensures r[|r| - |s|..] == s
  {
    if |s| < width then Zeros(width - |s|) + s else s
  }

  /** Java's `%03d` under a default locale with ASCII digits: at least three characters,
      zero-filled after the sign. */
  function Pad3(c: int): (r: string)
    ensures 0 <= c < 1000 ==> |r| == 3 && AllDigits(r)
    ensures c >= 1000 ==> AllDigits(r) && |r| > 3
    ensures c < 0 ==> |r| >= 3 && r[0] == '-' && forall i :: 1 <= i < |r| ==> IsDigit(r[i])
    // padding never goes past the width: a longer rendering starts with a significant digit
    ensures |r| > 3 ==> r[if c < 0 then 1 else 0] != '0'
  {
    DigitsLength(if c >= 0 then c else -c);
    DigitsLead(if c >= 0 then c else -c);
    if c >= 0 then ZeroPad(Digits(c), 3) else "-" + ZeroPad(Digits(-c), 2)
  }

  /** Reads back a decimal integer with an optional leading '-'. */
  function ParseCode(s: string): Option<int> {
    if |s| > 0 && s[0] == '-' then
      if |s| > 1 && AllDigits(s[1..]) then Some(-(ParseDigits(s[1..]) as int)) else None
    else if |s| > 0 && AllDigits(s) then Some(ParseDigits(s))
    else None
  }

  /** Reading one more digit after a numeral. */
  lemma ParseSnoc(s: string, ch: char)
    requires AllDigits(s) && IsDigit(ch)
    ensures AllDigits(s + [ch])
    ensures ParseDigits(s + [ch]) == ParseDigits(s) * 10 + DigitValue(ch)
  {
    var t := s + [ch];
    assert t[..|t| - 1] == s;
  }

  lemma {:induction false} ParseDigitsOfDigits(n: nat)
    ensures ParseDigits(Digits(n)) == n
    decreases n
  {
    if n >= 10 {
      ParseSnoc(Digits(n / 10), DigitChar(n % 10));
      ParseDigitsOfDigits(n / 10);
    }
  }

  lemma ZerosStep(k: nat)
    requires k > 0 && ParseDigits(Zeros(k - 1)) == 0
    ensures ParseDigits(Zeros(k)) == 0
  {
    var z := Zeros(k - 1);
    ParseSnoc(z, '0');
    assert Zeros(k) == z + ['0'];
  }

  lemma {:induction false} ParseZeros(k: nat)
    ensures ParseDigits(Zeros(k)) == 0
    decreases k
  {
    if k > 0 {
      ParseZeros(k - 1);
      ZerosStep(k);
    }
  }

  /** Leading zeros do not change the value of a numeral. */
  lemma {:induction false} ParseLeadingZeros(k: nat, s: string)
    requires AllDigits(s)
    ensures ParseDigits(Zeros(k) + s) == ParseDigits(s)
    decreases |s|
  {
    if |s| == 0 {
      assert Zeros(k) + s == Zeros(k);
      ParseZeros(k);
    } else {
      var t := Zeros(k) + s;
      assert t[..|t| - 1] == Zeros(k) + s[..|s| - 1];
      ParseLeadingZeros(k, s[..|s| - 1]);
    }
  }

  /** Zero padding never changes the value of the numeral. */
  lemma {:induction false} ParseZeroPad(s: string, width: nat)
    requires AllDigits(s)
    ensures AllDigits(ZeroPad(s, width))
    ensures ParseDigits(ZeroPad(s, width)) == ParseDigits(s)
  {
    if |s| < width {
      ParseLeadingZeros(width - |s|, s);
    }
  }

  /** The three-digit rendering of every error code reads back as that code. */
  lemma Pad3RoundTrip(c: int)
    ensures ParseCode(Pad3(c)) == Some(c)
  {
    if c >= 0 {
      NaturalRoundTrip(c);
    } else {
      NegativeRoundTrip(c);
    }
  }

  lemma NaturalRoundTrip(c: nat)
    ensures ParseCode(Pad3(c)) == Some(c)
  {
    var p := ZeroPad(Digits(c), 3);
    ParseDigitsOfDigits(c);
    ParseZeroPad(Digits(c), 3);
    assert Pad3(c) == p;
    assert IsDigit(p[0]);
  }

  lemma NegativeRoundTrip(c: int)
    requires c < 0
    ensures ParseCode(Pad3(c)) == Some(c)
  {
    var p := ZeroPad(Digits(-c), 2);
    ParseDigitsOfDigits(-c);
    ParseZeroPad(Digits(-c), 2);
    ParseNegative(p);
  }

  /** A '-' followed by a numeral reads as the negated value of the numeral. */
  lemma ParseNegative(p: string)
    requires |p| > 0 && AllDigits(p)
    ensures ParseCode("-" + p) == Some(-(ParseDigits(p) as int))
  {
    assert ("-" + p)[1..] == p;
  }

  /** The rendering never holds a newline, so it is one protocol line. */
  lemma Pad3HasNoNewline(c: int)
    ensures forall i :: 0 <= i < |Pad3(c)| ==> Pad3(c)[i] != '\n'
  {
  }

  /** A one-digit code is written with two leading zeros. */
  lemma OneDigitPad(c: nat)
    requires c < 10
    ensures Pad3(c) == ['0', '0', DigitChar(c)]
  {
    assert Digits(c) == [DigitChar(c)];
    assert Zeros(2) == Zeros(1) + "0";
    assert Zeros(1) == "0";
  }

  /** Appending a digit to a numeral. */
  lemma DigitsAppend(q: nat, d: nat)
    requires 1 <= q && d < 10
    ensures Digits(10 * q + d) == Digits(q) + [DigitChar(d)]
  {
    var n := 10 * q + d;
    assert n / 10 == q && n % 10 == d;
  }

  /** A three-digit code is written as its three digits. */
  lemma ThreeDigitPad(n: nat, a: nat, b: nat, c: nat)
    requires 1 <= a < 10 && b < 10 && c < 10 && n == 100 * a + 10 * b + c
    ensures Pad3(n) == [DigitChar(a), DigitChar(b), DigitChar(c)]
  {
    DigitsAppend(a, b);
    DigitsAppend(10 * a + b, c);
    assert Digits(n) == [DigitChar(a), DigitChar(b), DigitChar(c)];
  }

  /** A negative one-digit code is written as the sign, one zero and the digit. */
  lemma NegativeOneDigitPad(c: int)
    requires -10 < c < 0
    ensures Pad3(c) == ['-', '0', DigitChar(-c)]
  {
    assert Digits(-c) == [DigitChar(-c)];
    assert Zeros(1) == "0";
  }

  /** A four-digit code is written whole. */
  lemma FourDigitPad(n: nat, a: nat, b: nat, c: nat, d: nat)
    requires 1 <= a < 10 && b < 10 && c < 10 && d < 10 && n == 1000 * a + 100 * b + 10 * c + d
    ensures Pad3(n) == [DigitChar(a), DigitChar(b), DigitChar(c), DigitChar(d)]
  {
    DigitsAppend(a, b);
    DigitsAppend(10 * a + b, c);
    DigitsAppend(100 * a + 10 * b + c, d);
    assert Digits(n) == [DigitChar(a), DigitChar(b), DigitChar(c), DigitChar(d)];
  }
}

=== FILE: errors.dfy ===
/** The protocol errors of the calculator worker: the inner class `Error` of ServerWorker.java
    (lines 20-56). Java builds the error as an exception whose constructor also clears the
    evaluation stack; here an error is a plain value and the clearing is done by the session
    (`Session.Abort`). */
module Errors {
  import opened Opt
  import opened Lines
  import opened Decimal

  /** An error code with its optional free-text detail (Java's nullable `d`). */
  datatype SessionError = SessionError(code: int, detail: Option<string>)

  /** The codes the worker actually raises. */
  const DivideByZero: int := 0
  const WrongMessageType: int := 200
  const UnrecognizedOperator: int := 210
  const TooFewArguments: int := 220

  /** The constructor `Error(code, descr)`: an empty description is stored as no description. */
  function MakeError(code: int, descr: Option<string>): (e: SessionError)
    ensures e.code == code
    ensures e.detail.Some? <==> descr.Some? && descr.value != ""
    ensures e.detail.Some? ==> e.detail == descr
  {
    SessionError(code, if descr == Some("") then None else descr)
  }

  /** `errCode`: the symbolic name of a code, one name per range of codes. */
  function ErrName(c: int): (name: string)
    ensures name == "divideByZero" <==> c == 0
    ensures name == "timeout" <==> 10 <= c < 100
    ensures name == "wrongMessageTypeSyntax" <==> 200 <= c < 210
    ensures name == "unrecognizedOperator" <==> 210 <= c < 220
    ensures name == "tooFewArguments" <==> 220 <= c < 230
    ensures name == "wrongSyntax" <==> 230 <= c < 300
    ensures name == "Unknown error" <==> c != 0 && !(10 <= c < 100) && !(200 <= c < 300)
  {
    if c == 0 then "divideByZero"
    else if c >= 10 && c < 100 then "timeout"
    else if c >= 200 && c < 210 then "wrongMessageTypeSyntax"
    else if c >= 210 && c < 220 then "unrecognizedOperator"
    else if c >= 220 && c < 230 then "tooFewArguments"
    else if c >= 230 && c < 300 then "wrongSyntax"
    else "Unknown error"
  }

  /** A missing detail is written as an empty line. */
  function DetailText(d: Option<string>): string {
    if d.Some? then d.value else ""
  }

  /** The lines of the error block, the blank line that ends the block included. */
  function ErrorLines(e: SessionError): seq<string> {
    ["ERROR", Pad3(e.code), ErrName(e.code), DetailText(e.detail), ""]
  }

  /** `send()`: the text of `getErr()` followed by the terminating blank line. */
  function ErrorWire(e: SessionError): (r: string)
    ensures r == "ERROR" + "\n" + Pad3(e.code) + "\n" + ErrName(e.code) + "\n"
                 + DetailText(e.detail) + "\n" + "\n"
  {
    var ls := ErrorLines(e);
    JoinFourAndBlank(ls);
    JoinLines(ls)
  }

  /** Errors whose wire text can be read back unambiguously: the detail, when present, is one
      non-empty protocol line. Every error the worker raises is of this kind. */
  predicate WellFormed(e: SessionError) {
    e.detail.Some? ==> e.detail.value != "" && NoNewline(e.detail.value)
  }

  /** The client-side reading of an error block. */
  function DecodeError(s: string): Option<SessionError> {
    DecodeErrorLines(SplitLines(s))
  }

  /** The client-side reading of the lines of an error block. */
  function DecodeErrorLines(ls: seq<string>): Option<SessionError> {
    if |ls| != 5 || ls[0] != "ERROR" || ls[4] != "" then None
    else
      match ParseCode(ls[1])
      case None => None
      case Some(c) =>
        if ls[2] != ErrName(c) then None
        else Some(SessionError(c, if ls[3] == "" then None else Some(ls[3])))
  }

  lemma ErrNameHasNoNewline(c: int)
    ensures NoNewline(ErrName(c))
  {
  }

  /** Every line of an error block is one protocol line. */
  lemma ErrorLinesAreLines(e: SessionError)
    requires WellFormed(e)
    ensures forall i :: 0 <= i < |ErrorLines(e)| ==> NoNewline(ErrorLines(e)[i])
  {
    var ls := ErrorLines(e);
    forall i | 0 <= i < |ls|
      ensures NoNewline(ls[i])
    {
      if i == 1 {
        Pad3HasNoNewline(e.code);
      } else if i == 2 {
        ErrNameHasNoNewline(e.code);
      }
    }
  }

  /** The lines of an error block read back as that error. */
  lemma DecodeErrorLinesOf(e: SessionError)
    requires WellFormed(e)
    ensures DecodeErrorLines(ErrorLines(e)) == Some(e)
  {
    Pad3RoundTrip(e.code);
  }

  lemma ErrorLinesRoundTrip(e: SessionError)
    requires WellFormed(e)
    ensures DecodeError(JoinLines(ErrorLines(e))) == Some(e)
  {
    ErrorLinesAreLines(e);
    SplitJoin(ErrorLines(e));
    DecodeErrorLinesOf(e);
  }

  /** Reading back the error block recovers the code and the detail. */
  lemma ErrorWireRoundTrip(e: SessionError)
    requires WellFormed(e)
    ensures DecodeError(ErrorWire(e)) == Some(e)
  {
    ErrorLinesRoundTrip(e);
  }

  /** Two well-formed errors send the same text only when they are the same error. */
  lemma ErrorWireInjective(e1: SessionError, e2: SessionError)
    requires WellFormed(e1) && WellFormed(e2)
    ensures ErrorWire(e1) == ErrorWire(e2) <==> e1 == e2
  {
    ErrorWireRoundTrip(e1);
    ErrorWireRoundTrip(e2);
  }

  // The next three lemmas serve only `DivideByZeroWire` and `WrongMessageTypeWire` below. The
  // rendered code and the name come in as parameters equal to their values, so the string
  // equalities are proved over plain parameters instead of by evaluating `Pad3` and `ErrName`
  // on literals, which costs the solver far more.

  /** The error block of a code without detail, from its rendering and its name. */
  lemma WireWithoutDetail(c: int, pad: string, name: string)
    requires Pad3(c) == pad && ErrName(c) == name
    ensures ErrorWire(SessionError(c, None)) == "ERROR" + "\n" + pad + "\n" + name + "\n" + "" + "\n" + "\n"
  {
  }

  /** The text of the divideByZero block. */
  lemma ZeroText(pad: string, name: string)
    requires pad == "000" && name == "divideByZero"
    ensures "ERROR" + "\n" + pad + "\n" + name + "\n" + "" + "\n" + "\n" == "ERROR\n000\ndivideByZero\n\n\n"
  {
  }

  /** The text of the wrongMessageTypeSyntax block. */
  lemma TwoHundredText(pad: string, name: string)
    requires pad == "200" && name == "wrongMessageTypeSyntax"
    ensures "ERROR" + "\n" + pad + "\n" + name + "\n" + "" + "\n" + "\n"
            == "ERROR\n200\nwrongMessageTypeSyntax\n\n\n"
  {
  }

  lemma DivideByZeroCode()
    ensures Pad3(DivideByZero) == "000"
  {
    OneDigitPad(0);
  }

  lemma WrongMessageTypeCode()
    ensures Pad3(WrongMessageType) == "200"
  {
    ThreeDigitPad(200, 2, 0, 0);
  }

  lemma UnrecognizedOperatorCode()
    ensures Pad3(UnrecognizedOperator) == "210"
  {
    ThreeDigitPad(210, 2, 1, 0);
  }

  lemma TooFewArgumentsCode()
    ensures Pad3(TooFewArguments) == "220"
  {
    ThreeDigitPad(220, 2, 2, 0);
  }

  /** `%03d` on the codes the worker raises. */
  lemma Pad3OfRaisedCodes()
    ensures Pad3(0) == "000" && Pad3(200) == "200"
    ensures Pad3(210) == "210" && Pad3(220) == "220"
  {
    DivideByZeroCode();
    WrongMessageTypeCode();
    UnrecognizedOperatorCode();
    TooFewArgumentsCode();
  }

  /** `%03d` pads after the sign of a negative code and keeps long codes whole. */
  lemma Pad3OfOtherCodes()
    ensures Pad3(7) == "007" && Pad3(-5) == "-05" && Pad3(1234) == "1234"
  {
    assert Pad3(7) == "007" by { OneDigitPad(7); }
    assert Pad3(-5) == "-05" by { NegativeOneDigitPad(-5); }
    assert Pad3(1234) == "1234" by { FourDigitPad(1234, 1, 2, 3, 4); }
  }

  /** The error block of a division by zero. */
  lemma DivideByZeroWire()
    ensures ErrorWire(SessionError(DivideByZero, None)) == "ERROR\n000\ndivideByZero\n\n\n"
  {
    Pad3OfRaisedCodes();
    WireWithoutDetail(DivideByZero, Pad3(0), ErrName(0));
    ZeroText(Pad3(0), ErrName(0));
  }

  /** The error block of an unknown command. */
  lemma WrongMessageTypeWire()
    ensures ErrorWire(SessionError(WrongMessageType, None)) == "ERROR\n200\nwrongMessageTypeSyntax\n\n\n"
  {
    Pad3OfRaisedCodes();
    WireWithoutDetail(WrongMessageType, Pad3(200), ErrName(200));
    TwoHundredText(Pad3(200), ErrName(200));
  }
}

=== FILE: evaluator.dfy ===
/** The RPN evaluator of ServerWorker.java: `requireStack` (lines 58-62), `stackOp2`
    (lines 64-68) and `parseOpLine` (lines 70-104). One step reads one line of an operation
    block and either pushes a literal, applies an operator, reports an error or crashes. */
module Evaluator {
  import opened Opt
  import opened Lines
  import opened Errors

  /** The Java library calls the evaluator relies on and this model does not define:
      `parse` is `Double.parseDouble` (None when it throws NumberFormatException), `show` is
      `Double.toString`, `rem` is the floating `%` and `pow` is `Math.pow`. */
  datatype Env = Env(
    parse: string -> Option<real>,
    show: real -> string,
    rem: (real, real) -> real,
    pow: (real, real) -> real)

  /** `java.util.Stack<Double>`: the bottom element first, the top element last. */
  type Stack = seq<real>

  function Top(st: Stack): real
    requires |st| > 0
  {
    st[|st| - 1]
  }

  /** `stack.push(v)` */
  function Push(st: Stack, v: real): (r: Stack)
    ensures |r| == |st| + 1 && Top(r) == v
    ensures r[..|st|] == st
  {
    st + [v]
  }

  /** `stack.pop()`: the popped value and the remaining stack. */
  function Pop(st: Stack): (r: (real, Stack))
    requires |st| > 0
    ensures Push(r.1, r.0) == st
  {
    (st[|st| - 1], st[..|st| - 1])
  }

  /** The binary operators of an operation block. */
  datatype BinOp = Add | Sub | Mul | Div | Rem | Pow

  datatype Operator = Binary(op: BinOp) | Reset

  /** The `switch (line)` of `parseOpLine`: the operator a token stands for. */
  function OperatorOf(line: string): (r: Option<Operator>)
    ensures r.Some? <==> line in {"+", "-", "*", "/", "%", "^", "rst"}
    ensures r == Some(Reset) <==> line == "rst"
    ensures r == Some(Binary(Div)) <==> line == "/"
  {
    match line
    case "+" => Some(Binary(Add))
    case "-" => Some(Binary(Sub))
    case "*" => Some(Binary(Mul))
    case "/" => Some(Binary(Div))
    case "%" => Some(Binary(Rem))
    case "^" => Some(Binary(Pow))
    case "rst" => Some(Reset)
    case _ => None
  }

  /** The lambda handed to `stackOp2`, called as `op(a0, a1)` with `a0` the value popped first
      (the old top) and `a1` the value popped second. Only division swaps its operands. */
  function Apply(env: Env, op: BinOp, a0: real, a1: real): real
    requires op == Div ==> a0 != 0.0
  {
    match op
    case Add => a0 + a1
    case Sub => a0 - a1
    case Mul => a0 * a1
    case Div => a1 / a0
    case Rem => env.rem(a0, a1)
    case Pow => env.pow(a0, a1)
  }

  /** The outcome of feeding one line: the new stack and whether a result is now due to be
      reported, a protocol error, or the uncaught `EmptyStackException` of Java's `peek`. */
  datatype StepResult = Next(stack: Stack, pending: bool) | Fail(err: SessionError) | Crash

  /** `requireStack(n)`: the arity error when fewer than `n` values are stacked. */
  function RequireStack(st: Stack, n: nat): (r: Option<SessionError>)
    ensures r.None? <==> |st| >= n
    ensures r.Some? ==> r.value.code == TooFewArguments && r.value.detail.None?
  {
    if |st| < n then Some(MakeError(TooFewArguments, None)) else None
  }

  /** `stackOp2(op)`: check the arity, pop the top `t`, pop the next `s`, push `op(t, s)`. */
  function StackOp2(env: Env, st: Stack, op: BinOp): (r: StepResult)
    requires op == Div && |st| > 0 ==> Top(st) != 0.0
    ensures |st| < 2 <==> r.Fail?
    ensures r.Fail? ==> r.err == SessionError(TooFewArguments, None)
    ensures |st| >= 2 ==> r.Next? && r.pending
    ensures |st| >= 2 ==> |r.stack| == |st| - 1 && r.stack[..|st| - 2] == st[..|st| - 2]
    ensures |st| >= 2 ==> Top(r.stack) == Apply(env, op, st[|st| - 1], st[|st| - 2])
  {
    match RequireStack(st, 2)
    case Some(e) => Fail(e)
    case None =>
      var (arg0, st1) := Pop(st);
      var (arg1, st2) := Pop(st1);
      Next(Push(st2, Apply(env, op, arg0, arg1)), true)
  }

  /** The detail text of the unrecognized-operator error. */
  function ProblemWith(line: string): string {
    "Problem with : '" + line + "'"
  }

  /** `parseOpLine(line)`: one line of an operation block. */
  function Step(env: Env, st: Stack, line: string): (r: StepResult)
    // a literal is pushed, nothing below it changes, and no result is due
    ensures env.parse(line).Some? ==>
              r.Next? && !r.pending && |r.stack| == |st| + 1
              && r.stack[..|st|] == st && Top(r.stack) == env.parse(line).value
    // any successful non-literal line makes a result due
    ensures r.Next? && env.parse(line).None? ==> r.pending
    // only `/` on an empty stack crashes
    ensures r.Crash? <==> env.parse(line).None? && line == "/" && |st| == 0
    // `/` tests the divisor before the arity, so a lone 0 is a division by zero
    ensures env.parse(line).None? && line == "/" && |st| > 0 && Top(st) == 0.0 ==>
              r == Fail(SessionError(DivideByZero, None))
    // binary operators on a short stack fail with tooFewArguments
    ensures env.parse(line).None? && line in {"+", "-", "*", "%", "^"} && |st| < 2 ==>
              r == Fail(SessionError(TooFewArguments, None))
    ensures env.parse(line).None? && line == "/" && |st| == 1 && Top(st) != 0.0 ==>
              r == Fail(SessionError(TooFewArguments, None))
    // binary operators on a deep enough stack replace the top two values by one
    ensures env.parse(line).None? && OperatorOf(line).Some? && line != "rst" && |st| >= 2
            && !(line == "/" && Top(st) == 0.0) ==>
              r.Next? && |r.stack| == |st| - 1 && r.stack[..|st| - 2] == st[..|st| - 2]
    // `rst` empties the stack and makes a result due
    ensures env.parse(line).None? && line == "rst" ==> r == Next([], true)
    // every other token is an unrecognized operator, quoted in the detail
    ensures env.parse(line).None? && OperatorOf(line).None? ==>
              r == Fail(SessionError(UnrecognizedOperator, Some(ProblemWith(line))))
    ensures r.Fail? ==> r.err.code in {DivideByZero, UnrecognizedOperator, TooFewArguments}
    ensures r.Fail? && NoNewline(line) ==> WellFormed(r.err)
  {
    match env.parse(line)
    case Some(v) => Next(Push(st, v), false)
    case None =>
      match OperatorOf(line)
      case None => Fail(MakeError(UnrecognizedOperator, Some(ProblemWith(line))))
      case Some(Reset) => Next([], true)
      case Some(Binary(op)) =>
        if op == Div then
          if |st| == 0 then Crash
          else if Top(st) == 0.0 then Fail(MakeError(DivideByZero, None))
          else StackOp2(env, st, op)
        else StackOp2(env, st, op)
  }

  /** Java's `Double.parseDouble` throws on every operator token. */
  predicate OperatorsAreNotLiterals(env: Env) {
    && env.parse("+").None? && env.parse("-").None? && env.parse("*").None?
    && env.parse("/").None? && env.parse("%").None? && env.parse("^").None?
    && env.parse("rst").None?
  }

  /** The operand order of every binary operator: with `t` on top and `s` below it, the new top
      is `t+s`, `t-s`, `t*s`, `t%s`, `pow(t,s)`, and only for `/` the quotient `s/t`. */
  lemma OperandOrder(env: Env, st: Stack, t: real, s: real)
    requires OperatorsAreNotLiterals(env)
    ensures Step(env, st + [s, t], "+") == Next(st + [t + s], true)
    ensures Step(env, st + [s, t], "-") == Next(st + [t - s], true)
    ensures Step(env, st + [s, t], "*") == Next(st + [t * s], true)
    ensures Step(env, st + [s, t], "%") == Next(st + [env.rem(t, s)], true)
    ensures Step(env, st + [s, t], "^") == Next(st + [env.pow(t, s)], true)
    ensures t != 0.0 ==> Step(env, st + [s, t], "/") == Next(st + [s / t], true)
  {
    OperatorTokens();
    BinaryStep(env, st, t, s, "+", Add);
    BinaryStep(env, st, t, s, "-", Sub);
    BinaryStep(env, st, t, s, "*", Mul);
    BinaryStep(env, st, t, s, "%", Rem);
    BinaryStep(env, st, t, s, "^", Pow);
    if t != 0.0 {
      BinaryStep(env, st, t, s, "/", Div);
    }
  }

  /** The operator each token of the `switch` stands for. */
  lemma OperatorTokens()
    ensures OperatorOf("+") == Some(Binary(Add)) && OperatorOf("-") == Some(Binary(Sub))
    ensures OperatorOf("*") == Some(Binary(Mul)) && OperatorOf("/") == Some(Binary(Div))
    ensures OperatorOf("%") == Some(Binary(Rem)) && OperatorOf("^") == Some(Binary(Pow))
  {
  }

  /** A binary operator line on a stack whose top two values are `t` over `s`. */
  lemma BinaryStep(env: Env, st: Stack, t: real, s: real, line: string, op: BinOp)
    requires env.parse(line).None? && OperatorOf(line) == Some(Binary(op))
    requires op == Div ==> t != 0.0
    ensures Step(env, st + [s, t], line) == Next(st + [Apply(env, op, t, s)], true)
  {
    var full := st + [s, t];
    assert full[..|full| - 1] == st + [s];
    assert (st + [s])[..|st|] == st;
    assert StackOp2(env, full, op) == Next(Push(st, Apply(env, op, t, s)), true);
  }

  /** After `rst` every binary operator other than `/` is short of arguments; `/` crashes
      because it peeks the empty stack before checking the arity. */
  lemma ResetThenOperator(env: Env, st: Stack, op: string)
    requires OperatorsAreNotLiterals(env)
    requires op in {"+", "-", "*", "%", "^"}
    ensures Step(env, st, "rst") == Next([], true)
    ensures Step(env, [], op) == Fail(SessionError(TooFewArguments, None))
    ensures Step(env, [], "/") == Crash
  {
  }
}

=== FILE: lines.dfy ===
/** Newline framing of the wire protocol: every protocol line is written followed by '\n'.
    `JoinLines` builds the wire text from its lines and `SplitLines` takes it apart again. */
module Lines {

  /** A string that can stand as one protocol line. */
  predicate NoNewline(s: string) {
    forall i :: 0 <= i < |s| ==> s[i] != '\n'
  }

  /** Every line of `ls` terminated by '\n', concatenated. */
  function JoinLines(ls: seq<string>): (r: string)
    ensures |r| >= |ls|
  {
    if |ls| == 0 then "" else ls[0] + "\n" + JoinLines(ls[1..])
  }

  /** The '\n'-terminated lines of `s`; text after the last '\n' is not a complete line and is dropped. */
  function SplitLines(s: string): seq<string> {
    SplitFrom(s, "")
  }

  /** Splits `s` into lines, where `cur` is the part of the current line already read. */
  function SplitFrom(s: string, cur: string): seq<string>
    decreases |s|
  {
    if |s| == 0 then []
    else if s[0] == '\n' then [cur] + SplitFrom(s[1..], "")
    else SplitFrom(s[1..], cur + [s[0]])
  }

  lemma {:induction false} SplitOneLine(line: string, rest: string, cur: string)
    requires NoNewline(line)
    ensures SplitFrom(line + "\n" + rest, cur) == [cur + line] + SplitFrom(rest, "")
    decreases |line|
  {
    if |line| == 0 {
      assert line + "\n" + rest == ['\n'] + rest;
      assert (['\n'] + rest)[1..] == rest;
      assert cur + line == cur;
    } else {
      var s := line + "\n" + rest;
      assert s[0] == line[0];
      assert s[1..] == line[1..] + "\n" + rest;
      SplitOneLine(line[1..], rest, cur + [line[0]]);
      assert cur + [line[0]] + line[1..] == cur + line;
    }
  }

  /** Splitting the joined lines gives the lines back, as long as none of them holds a newline. */
  lemma {:induction false} SplitJoin(ls: seq<string>)
    requires forall i :: 0 <= i < |ls| ==> NoNewline(ls[i])
    ensures SplitLines(JoinLines(ls)) == ls
    decreases |ls|
  {
    if |ls| > 0 {
      SplitOneLine(ls[0], JoinLines(ls[1..]), "");
      assert "" + ls[0] == ls[0];
      SplitJoin(ls[1..]);
      assert [ls[0]] + ls[1..] == ls;
    }
  }

  /** One step of `JoinLines`, stated for a sequence written as head and tail. */
  lemma JoinCons(a: string, rest: seq<string>)
    ensures JoinLines([a] + rest) == a + "\n" + JoinLines(rest)
  {
    assert ([a] + rest)[1..] == rest;
  }

  /** Two lines and the blank line that ends a block, joined. */
  lemma JoinTwoAndBlank(ls: seq<string>)
    requires |ls| == 3 && ls[2] == ""
    ensures JoinLines(ls) == ls[0] + "\n" + ls[1] + "\n" + "\n"
  {
    var j2 := JoinLines(ls[2..]);
    assert ls[2..] == [ls[2]] + [];
    JoinCons(ls[2], []);
    var j1 := JoinLines(ls[1..]);
    assert ls[1..][1..] == ls[2..];
    assert j1 == ls[1] + "\n" + j2;
  }

  /** Four lines and the blank line that ends a block, joined. */
  lemma JoinFourAndBlank(ls: seq<string>)
    requires |ls| == 5 && ls[4] == ""
    ensures JoinLines(ls) == ls[0] + "\n" + ls[1] + "\n" + ls[2] + "\n" + ls[3] + "\n" + "\n"
  {
    var j4 := JoinLines(ls[4..]);
    assert ls[4..] == [ls[4]] + [];
    JoinCons(ls[4], []);
    var j3 := JoinLines(ls[3..]);
    assert ls[3..][1..] == ls[4..];
    assert j3 == ls[3] + "\n" + j4;
    var j2 := JoinLines(ls[2..]);
    assert ls[2..][1..] == ls[3..];
    assert j2 == ls[2] + "\n" + j3;
    var j1 := JoinLines(ls[1..]);
    assert ls[1..][1..] == ls[2..];
    assert j1 == ls[1] + "\n" + j2;
  }
}

=== FILE: option.dfy ===
/** The optional-value type used for Java's nullable references and partial parsers. */
module Opt {

  datatype Option<+T> = None | Some(value: T)

}

=== FILE: scenarios.dfy ===
/** Concrete conversations with the worker, for any `Double.parseDouble` that reads the small
    numerals used here the usual way. */
module Scenarios {
  import opened Opt
  import opened Errors
  import opened Evaluator
  import opened Session
  import opened SessionProperties

  predicate ReadsSmallNumerals(env: Env) {
    && OperatorsAreNotLiterals(env)
    && env.parse("0") == Some(0.0) && env.parse("2") == Some(2.0) && env.parse("3") == Some(3.0)
    && env.parse("4") == Some(4.0) && env.parse("5") == Some(5.0) && env.parse("6") == Some(6.0)
    && env.parse("10") == Some(10.0)
  }

  lemma PushLiteral(env: Env, st: Stack, line: string, v: real)
    requires env.parse(line) == Some(v)
    ensures Step(env, st, line) == Next(st + [v], false)
  {
  }

  /** A block of one literal and then one more line: the line applied to the stack with the
      literal on top. */
  lemma LiteralThenLine(env: Env, st: Stack, y: string, line: string, vy: real)
    requires env.parse(y) == Some(vy)
    ensures EvalLines(env, st, false, [y, line]) == Step(env, st + [vy], line)
  {
    PushLiteral(env, st, y, vy);
    assert [y, line][1..] == [line];
    LastLine(env, st + [vy], line);
  }

  /** A block of one line is that line's step. */
  lemma LastLine(env: Env, st: Stack, line: string)
    ensures EvalLines(env, st, false, [line]) == Step(env, st, line)
  {
    assert [line][1..] == [];
    match Step(env, st, line)
    case Next(st', p) =>
      assert EvalLines(env, st', p, []) == Next(st', p);
    case Fail(e) =>
    case Crash =>
  }

  /** The text of a connection that produced two replies. */
  lemma TwoRepliesText(env: Env, lines: seq<string>, a: Reply, b: Reply)
    requires Serve(env, lines).replies == [a, b]
    ensures Output(env, lines) == ReplyWire(env, a) + ReplyWire(env, b)
  {
    RenderTwo(env, a, b);
  }

  /** A block of two literals and then one more line. */
  lemma TwoLiteralsThenLine(env: Env, st: Stack, x: string, y: string, line: string, vx: real, vy: real)
    requires env.parse(x) == Some(vx) && env.parse(y) == Some(vy)
    ensures EvalLines(env, st, false, [x, y, line]) == Step(env, st + [vx, vy], line)
  {
    PushLiteral(env, st, x, vx);
    assert [x, y, line][1..] == [y, line];
    LiteralThenLine(env, st + [vx], y, line, vy);
    assert st + [vx] + [vy] == st + [vx, vy];
  }

  /** A connection made of one operation block whose last line is an operator leaving one value:
      that value is the final result. */
  lemma OneBlockSession(env: Env, block: seq<string>, v: real)
    requires NoBlankLine(block)
    requires |block| > 0 && env.parse(block[|block| - 1]).None?
    requires EvalLines(env, [], false, block) == Next([v], true)
    ensures Serve(env, ["OP"] + block + [""]) == Outcome(InputClosed, [Greeting, Result(false, v)], [v])
  {
    OperationBlock(env, [], "OP", block, [], [Greeting]);
    assert ["OP"] + block + [""] == ["OP"] + block + [""] + [];
  }

  /** A connection made of one block of two literals and a binary operator. */
  lemma BinaryBlockSession(env: Env, x: string, y: string, line: string, op: BinOp, vx: real, vy: real)
    requires env.parse(x) == Some(vx) && env.parse(y) == Some(vy) && x != "" && y != ""
    requires env.parse(line).None? && OperatorOf(line) == Some(Binary(op)) && line != ""
    requires op == Div ==> vy != 0.0
    ensures Serve(env, ["OP", x, y, line, ""])
            == Outcome(InputClosed, [Greeting, Result(false, Apply(env, op, vy, vx))],
                       [Apply(env, op, vy, vx)])
  {
    var block := [x, y, line];
    BinaryBlock(env, x, y, line, op, vx, vy);
    assert NoBlankLine(block);
    OneBlockSession(env, block, Apply(env, op, vy, vx));
    assert ["OP", x, y, line, ""] == ["OP"] + block + [""];
  }

  /** Two literals and a binary operator leave the one value computed from them. */
  lemma BinaryBlock(env: Env, x: string, y: string, line: string, op: BinOp, vx: real, vy: real)
    requires env.parse(x) == Some(vx) && env.parse(y) == Some(vy)
    requires env.parse(line).None? && OperatorOf(line) == Some(Binary(op))
    requires op == Div ==> vy != 0.0
    ensures EvalLines(env, [], false, [x, y, line]) == Next([Apply(env, op, vy, vx)], true)
  {
    TwoLiteralsThenLine(env, [], x, y, line, vx, vy);
    BinaryStep(env, [], vy, vx, line, op);
    assert [] + [Apply(env, op, vy, vx)] == [Apply(env, op, vy, vx)];
  }

  /** `OP 10 3 -` answers 3 - 10: the operand popped first is the left operand of `-`. */
  lemma SubtractionIsReversed(env: Env)
    requires ReadsSmallNumerals(env)
    ensures Serve(env, ["OP", "10", "3", "-", ""])
            == Outcome(InputClosed, [Greeting, Result(false, -7.0)], [-7.0])
  {
    OperatorTokens();
    BinaryBlockSession(env, "10", "3", "-", Sub, 10.0, 3.0);
  }

  /** `OP 6 2 /` answers 6 / 2: division alone takes its operands in pushing order. */
  lemma DivisionInPushOrder(env: Env)
    requires ReadsSmallNumerals(env)
    ensures Serve(env, ["OP", "6", "2", "/", ""])
            == Outcome(InputClosed, [Greeting, Result(false, 3.0)], [3.0])
  {
    OperatorTokens();
    BinaryBlockSession(env, "6", "2", "/", Div, 6.0, 2.0);
  }

  /** The text of that conversation. */
  lemma DivisionText(env: Env)
    requires ReadsSmallNumerals(env)
    ensures Output(env, ["OP", "6", "2", "/", ""])
            == GreetingText + "RESULT" + "\n" + env.show(3.0) + "\n" + "\n"
  {
    DivisionInPushOrder(env);
    FinalResultText(env, ["OP", "6", "2", "/", ""], 3.0);
  }

  /** The text of a connection whose one reply after the greeting is a final result. */
  lemma FinalResultText(env: Env, lines: seq<string>, v: real)
    requires Serve(env, lines).replies == [Greeting, Result(false, v)]
    ensures Output(env, lines) == GreetingText + "RESULT" + "\n" + env.show(v) + "\n" + "\n"
  {
    TwoRepliesText(env, lines, Greeting, Result(false, v));
  }

  /** `OP 5 0 /` is a division by zero: one error block, then the session is over. */
  lemma DivisionByZeroEndsSession(env: Env)
    requires ReadsSmallNumerals(env)
    ensures Serve(env, ["OP", "5", "0", "/", ""])
            == Outcome(Errored(SessionError(DivideByZero, None)),
                       [Greeting, ErrorReply(SessionError(DivideByZero, None))], [])
  {
    DivideByZeroBlock(env, "5", "0", 5.0);
  }

  /** A connection made of one block that divides a literal by a literal zero. */
  lemma DivideByZeroBlock(env: Env, x: string, y: string, vx: real)
    requires env.parse(x) == Some(vx) && env.parse(y) == Some(0.0) && x != "" && y != ""
    requires env.parse("/").None?
    ensures Serve(env, ["OP", x, y, "/", ""])
            == Outcome(Errored(SessionError(DivideByZero, None)),
                       [Greeting, ErrorReply(SessionError(DivideByZero, None))], [])
  {
    var block := [x, y, "/"];
    TwoLiteralsThenLine(env, [], x, y, "/", vx, 0.0);
    assert Top([] + [vx, 0.0]) == 0.0;
    assert NoBlankLine(block);
    FailingBlock(env, [], "OP", block, [], [Greeting]);
    assert ["OP", x, y, "/", ""] == ["OP"] + block + [""] + [];
  }

  /** The text of that conversation. */
  lemma DivisionByZeroText(env: Env)
    requires ReadsSmallNumerals(env)
    ensures Output(env, ["OP", "5", "0", "/", ""])
            == GreetingText + "ERROR\n000\ndivideByZero\n\n\n"
  {
    DivisionByZeroEndsSession(env);
    TwoRepliesText(env, ["OP", "5", "0", "/", ""], Greeting, ErrorReply(SessionError(DivideByZero, None)));
    DivideByZeroWire();
  }

  /** An unknown command is error 200 with an empty detail line. */
  lemma GarbageCommand(env: Env)
    ensures Output(env, ["GARBAGE"]) == GreetingText + "ERROR\n200\nwrongMessageTypeSyntax\n\n\n"
  {
    var e := SessionError(WrongMessageType, None);
    Commands(env, [], "GARBAGE", [], [Greeting]);
    assert ["GARBAGE"] == ["GARBAGE"] + [];
    assert Serve(env, ["GARBAGE"]).replies == [Greeting, ErrorReply(e)];
    TwoRepliesText(env, ["GARBAGE"], Greeting, ErrorReply(e));
    WrongMessageTypeWire();
  }

  /** `QUIT` first: nothing but the greeting is sent. */
  lemma QuitAtOnce(env: Env)
    ensures Serve(env, ["QUIT"]) == Outcome(Quit, [Greeting], [])
    ensures Output(env, ["QUIT"]) == GreetingText
  {
    assert ["QUIT"] == ["QUIT"] + [];
    Commands(env, [], "QUIT", [], [Greeting]);
    RenderOne(env, Greeting);
  }

  /** A block of one literal leaves the literal on the stack and reports nothing. */
  lemma LiteralBlock(env: Env, x: string, vx: real, rest: seq<string>)
    requires env.parse(x) == Some(vx) && x != ""
    ensures Serve(env, ["OP", x, ""] + rest) == RunCommands(env, [vx], rest, [Greeting])
  {
    var b1 := [x];
    PushLiteral(env, [], x, vx);
    assert b1[1..] == [];
    assert [] + [vx] == [vx];
    assert EvalLines(env, [], false, b1) == Next([vx], false);
    OperationBlock(env, [], "OP", b1, rest, [Greeting]);
    assert ["OP", x, ""] + rest == ["OP"] + b1 + [""] + rest;
  }

  /** After `OP 4` the 4 stays on the stack and nothing is reported. */
  lemma LiteralBlockKeepsStack(env: Env, rest: seq<string>)
    requires ReadsSmallNumerals(env)
    ensures Serve(env, ["OP", "4", ""] + rest) == RunCommands(env, [4.0], rest, [Greeting])
  {
    LiteralBlock(env, "4", 4.0, rest);
  }

  /** An operation block whose last line is an operator leaving one value reports that value
      as the final result and hands the stack on. */
  lemma FinalResultBlock(env: Env, st: Stack, block: seq<string>, v: real, rest: seq<string>,
                         replies: seq<Reply>)
    requires NoBlankLine(block)
    requires |block| > 0 && env.parse(block[|block| - 1]).None?
    requires EvalLines(env, st, false, block) == Next([v], true)
    ensures RunCommands(env, st, ["OP"] + block + [""] + rest, replies)
            == RunCommands(env, [v], rest, replies + [Result(false, v)])
  {
    OperationBlock(env, st, "OP", block, rest, replies);
  }

  /** A later block works on the stack the earlier one left: `OP 2 /` divides that 4. */
  lemma LaterBlockUsesStack(env: Env, rest: seq<string>)
    requires ReadsSmallNumerals(env)
    ensures RunCommands(env, [4.0], ["OP", "2", "/", ""] + rest, [Greeting])
            == RunCommands(env, [2.0], rest, [Greeting, Result(false, 2.0)])
  {
    OperatorTokens();
    OperandOnStack(env, 4.0, "2", "/", Div, 2.0, rest, [Greeting]);
    assert Apply(env, Div, 2.0, 4.0) == 2.0;
    assert [Greeting] + [Result(false, 2.0)] == [Greeting, Result(false, 2.0)];
  }

  /** A block of one literal and a binary operator, on a stack holding one value. */
  lemma OperandOnStack(env: Env, s: real, y: string, line: string, op: BinOp, vy: real,
                       rest: seq<string>, replies: seq<Reply>)
    requires env.parse(y) == Some(vy) && y != ""
    requires env.parse(line).None? && OperatorOf(line) == Some(Binary(op)) && line != ""
    requires op == Div ==> vy != 0.0
    ensures RunCommands(env, [s], ["OP", y, line, ""] + rest, replies)
            == RunCommands(env, [Apply(env, op, vy, s)], rest,
                           replies + [Result(false, Apply(env, op, vy, s))])
  {
    var b2 := [y, line];
    assert ["OP", y, line, ""] + rest == ["OP"] + b2 + [""] + rest by {
      assert ["OP", y, line, ""] == ["OP"] + b2 + [""];
    }
    OperandOnStackBlock(env, s, y, line, op, vy);
    assert NoBlankLine(b2);
    FinalResultBlock(env, [s], b2, Apply(env, op, vy, s), rest, replies);
  }

  /** One literal and a binary operator, on a stack holding one value, leave one value. */
  lemma OperandOnStackBlock(env: Env, s: real, y: string, line: string, op: BinOp, vy: real)
    requires env.parse(y) == Some(vy)
    requires env.parse(line).None? && OperatorOf(line) == Some(Binary(op))
    requires op == Div ==> vy != 0.0
    ensures EvalLines(env, [s], false, [y, line]) == Next([Apply(env, op, vy, s)], true)
  {
    var v := Apply(env, op, vy, s);
    LiteralThenLine(env, [s], y, line, vy);
    BinaryStep(env, [], vy, s, line, op);
    assert [s] + [vy] == [] + [s, vy];
    assert [] + [v] == [v];
  }

  /** The stack outlives its block, `ACTIVE` changes nothing and `QUIT` ends the reading. */
  lemma StackPersistsAcrossBlocks(env: Env)
    requires ReadsSmallNumerals(env)
    ensures Serve(env, ["OP", "4", "", "OP", "2", "/", "", "ACTIVE", "QUIT", "OP"])
            == Outcome(Quit, [Greeting, Result(false, 2.0)], [2.0])
  {
    var tail := ["ACTIVE", "QUIT", "OP"];
    var rest1 := ["OP", "2", "/", ""] + tail;
    LiteralBlockKeepsStack(env, rest1);
    assert ["OP", "4", "", "OP", "2", "/", "", "ACTIVE", "QUIT", "OP"] == ["OP", "4", ""] + rest1;
    LaterBlockUsesStack(env, tail);
    Commands(env, [2.0], "ACTIVE", ["QUIT", "OP"], [Greeting, Result(false, 2.0)]);
    Commands(env, [2.0], "QUIT", ["OP"], [Greeting, Result(false, 2.0)]);
    assert tail == ["ACTIVE"] + ["QUIT", "OP"];
    assert ["QUIT", "OP"] == ["QUIT"] + ["OP"];
  }

  /** A block ending in `rst` crashes the worker when it peeks the emptied stack. */
  lemma ResetLastCrashes(env: Env)
    requires ReadsSmallNumerals(env)
    ensures Serve(env, ["OP", "5", "rst", "", "QUIT"]) == Outcome(Crashed, [Greeting], [])
  {
    var block := ["5", "rst"];
    LiteralThenLine(env, [], "5", "rst", 5.0);
    OperationBlock(env, [], "OP", block, ["QUIT"], [Greeting]);
    assert ["OP", "5", "rst", "", "QUIT"] == ["OP"] + block + [""] + ["QUIT"];
  }

  /** `/` on an empty stack crashes the worker when `peek` finds nothing to test against zero;
      nothing follows the greeting and the QUIT is never read. */
  lemma DivideEmptyStackCrashes(env: Env)
    requires ReadsSmallNumerals(env)
    ensures Serve(env, ["OP", "/", "", "QUIT"]) == Outcome(Crashed, [Greeting], [])
  {
    var block := ["/"];
    LastLine(env, [], "/");
    CrashingBlock(env, [], "OP", block, ["QUIT"], [Greeting]);
    assert ["OP", "/", "", "QUIT"] == ["OP"] + block + [""] + ["QUIT"];
  }
}

=== FILE: session.dfy ===
/** The per-connection session of ServerWorker.java: `printResult` (lines 106-112) and the
    command loop of `run` (lines 155-189), as a fold over the lines the client sends. The socket
    becomes the list of input lines and the sequence of replies written back. */
module Session {
  import opened Opt
  import opened Lines
  import opened Errors
  import opened Evaluator

  /** One response unit written (and flushed) to the client. */
  datatype Reply = Greeting | Result(partial: bool, value: real) | ErrorReply(err: SessionError)

  /** Why the session stopped reading: end of input, `QUIT`, a protocol error (terminal), or an
      exception the worker does not catch. */
  datatype Ending = InputClosed | Quit | Errored(err: SessionError) | Crashed

  /** Where a session ends up: why it stopped, everything it sent, and its stack. */
  datatype Outcome = Outcome(ending: Ending, replies: seq<Reply>, stack: Stack)

  const GreetingText: string := "VERSION" + "\n" + "1.0.0" + "\n" + "\n"

  /** The protocol lines of a reply, the terminating blank line included. */
  function ReplyLines(env: Env, r: Reply): seq<string> {
    match r
    case Greeting => ["VERSION", "1.0.0", ""]
    case Result(partial, v) => [if partial then "PARTIAL_RESULT" else "RESULT", env.show(v), ""]
    case ErrorReply(e) => ErrorLines(e)
  }

  /** The wire text of one reply. */
  function ReplyWire(env: Env, r: Reply): (w: string)
    ensures r.Greeting? ==> w == GreetingText
    ensures r.Result? && r.partial ==> w == "PARTIAL_RESULT" + "\n" + env.show(r.value) + "\n" + "\n"
    ensures r.Result? && !r.partial ==> w == "RESULT" + "\n" + env.show(r.value) + "\n" + "\n"
    ensures r.ErrorReply? ==> w == ErrorWire(r.err)
  {
    var ls := ReplyLines(env, r);
    if r.ErrorReply? then
      JoinLines(ls)
    else
      JoinTwoAndBlank(ls);
      JoinLines(ls)
  }

  /** Everything written to the client, in order. */
  function Render(env: Env, rs: seq<Reply>): string {
    if |rs| == 0 then "" else ReplyWire(env, rs[0]) + Render(env, rs[1..])
  }

  lemma {:induction false} RenderAppend(env: Env, rs: seq<Reply>, more: seq<Reply>)
    ensures Render(env, rs + more) == Render(env, rs) + Render(env, more)
    decreases |rs|
  {
    if |rs| > 0 {
      assert (rs + more)[1..] == rs[1..] + more;
      RenderAppend(env, rs[1..], more);
    } else {
      assert rs + more == more;
    }
  }

  lemma RenderOne(env: Env, a: Reply)
    ensures Render(env, [a]) == ReplyWire(env, a)
  {
    assert [a][1..] == [];
  }

  lemma RenderTwo(env: Env, a: Reply, b: Reply)
    ensures Render(env, [a, b]) == ReplyWire(env, a) + ReplyWire(env, b)
  {
    assert [a, b][1..] == [b];
    RenderOne(env, b);
  }

  /** The state of reading an operation block when it stops: the blank line (or the end of
      input) was reached, a line failed, or a line crashed the worker. */
  datatype BlockResult =
    | BlockDone(stack: Stack, pending: bool, rest: seq<string>, atEnd: bool)
    | BlockFailed(err: SessionError)
    | BlockCrashed

  /** The inner loop of `run` (lines 166-169): feed lines to the evaluator until an empty line
      or the end of input; `pending` is `sendResult`, the flag of the last line fed. */
  function FeedBlock(env: Env, st: Stack, pending: bool, lines: seq<string>): (r: BlockResult)
    ensures r.BlockDone? ==> |r.rest| <= |lines|
    ensures r.BlockDone? && r.atEnd ==> r.rest == []
    ensures r.BlockDone? && !r.atEnd ==> |r.rest| < |lines| && lines[|lines| - |r.rest| - 1] == ""
    ensures r.BlockDone? ==> r.rest == lines[|lines| - |r.rest|..]
    // the blank line that ends the block is the first one
    ensures r.BlockDone? ==>
              forall i :: 0 <= i < |lines| - |r.rest| - (if r.atEnd then 0 else 1) ==> lines[i] != ""
    decreases |lines|
  {
    if |lines| == 0 then BlockDone(st, pending, [], true)
    else if lines[0] == "" then BlockDone(st, pending, lines[1..], false)
    else
      match Step(env, st, lines[0])
      case Next(st', pending') => FeedBlock(env, st', pending', lines[1..])
      case Fail(e) => BlockFailed(e)
      case Crash => BlockCrashed
  }

  /** `printResult`: the value on top, flagged partial when more values remain; None when the
      stack is empty and `peek` throws. */
  function Report(st: Stack): (r: Option<Reply>)
    ensures r.Some? <==> |st| > 0
    ensures r.Some? ==> r.value.Result? && (r.value.partial <==> |st| > 1)
    ensures r.Some? ==> r.value.value == Top(st)
  {
    if |st| == 0 then None else Some(Result(|st| > 1, Top(st)))
  }

  /** The error path: the error clears the stack, its block is sent, and the session ends. */
  function Abort(e: SessionError, replies: seq<Reply>): (r: Outcome)
    ensures r.ending == Errored(e) && r.stack == []
    ensures r.replies == replies + [ErrorReply(e)]
  {
    Outcome(Errored(e), replies + [ErrorReply(e)], [])
  }

  predicate NoErrorReply(rs: seq<Reply>) {
    forall i :: 0 <= i < |rs| ==> !rs[i].ErrorReply?
  }

  predicate NoGreeting(rs: seq<Reply>) {
    forall i :: 0 <= i < |rs| ==> !rs[i].Greeting?
  }

  /** How `after` continues the replies `before` when the session ends with `ending`: replies are
      only appended, never a second greeting, and an error block is sent exactly when the
      session ends on an error, as its last reply. */
  predicate Continues(before: seq<Reply>, after: seq<Reply>, ending: Ending) {
    && |before| <= |after| && after[..|before|] == before
    && NoGreeting(after[|before|..])
    && if ending.Errored? then
         && |after| > |before| && after[|after| - 1] == ErrorReply(ending.err)
         && NoErrorReply(after[|before|..|after| - 1])
       else NoErrorReply(after[|before|..])
  }

  lemma ContinuesAfterResult(before: seq<Reply>, reply: Reply, after: seq<Reply>, ending: Ending)
    requires reply.Result?
    requires Continues(before + [reply], after, ending)
    ensures Continues(before, after, ending)
  {
    var n := |before|;
    assert after[..n] == (before + [reply])[..n];
    assert after[n] == reply;
    if ending.Errored? {
      assert after[n..|after| - 1] == [reply] + after[n + 1..|after| - 1];
    }
    assert after[n..] == [reply] + after[n + 1..];
  }

  /** The outer loop of `run` (lines 162-182), from a given stack and the replies sent so far. */
  function RunCommands(env: Env, st: Stack, lines: seq<string>, replies: seq<Reply>): (r: Outcome)
    ensures Continues(replies, r.replies, r.ending)
    ensures r.ending.Errored? ==> r.stack == []
    decreases |lines|
  {
    if |lines| == 0 then Outcome(InputClosed, replies, st)
    else
      var command := lines[0];
      if command == "NUMERIC_OPERATION" || command == "OP" then
        match FeedBlock(env, st, false, lines[1..])
        case BlockFailed(e) => Abort(e, replies)
        case BlockCrashed => Outcome(Crashed, replies, [])
        case BlockDone(st', sendResult, rest, _) =>
          if !sendResult then RunCommands(env, st', rest, replies)
          else
            match Report(st')
            case None => Outcome(Crashed, replies, st')
            case Some(reply) =>
              var r := RunCommands(env, st', rest, replies + [reply]);
              ContinuesAfterResult(replies, reply, r.replies, r.ending);
              r
      else if command == "ACTIVE" then RunCommands(env, st, lines[1..], replies)
      else if command == "QUIT" then Outcome(Quit, replies, st)
      else Abort(MakeError(WrongMessageType, None), replies)
  }

  /** A whole connection: the greeting, then the command loop on an empty stack. */
  function Serve(env: Env, lines: seq<string>): (r: Outcome)
    ensures |r.replies| >= 1 && r.replies[0] == Greeting
    ensures NoGreeting(r.replies[1..])
    ensures r.ending.Errored? ==>
              r.replies[|r.replies| - 1] == ErrorReply(r.ending.err)
              && NoErrorReply(r.replies[..|r.replies| - 1])
    ensures !r.ending.Errored? ==> NoErrorReply(r.replies)
  {
    var r := RunCommands(env, [], lines, [Greeting]);
    assert r.replies == [Greeting] + r.replies[1..];
    r
  }

  /** The text the client receives over the whole connection. */
  function Output(env: Env, lines: seq<string>): (out: string)
    ensures GreetingText <= out
  {
    var rs := Serve(env, lines).replies;
    RenderAppend(env, [rs[0]], rs[1..]);
    assert rs == [rs[0]] + rs[1..];
    Render(env, rs)
  }
}

=== FILE: session_properties.dfy ===
/** Properties of the session protocol: how an operation block is evaluated and reported, what
    the top-level commands do, and that QUIT and errors end the reading of input. */
module SessionProperties {
  import opened Opt
  import opened Errors
  import opened Evaluator
  import opened Session

  /** The evaluator run over a whole block, line by line, stopping at the first failure or crash;
      a reference for what `FeedBlock` computes on the lines before the blank line. */
  function EvalLines(env: Env, st: Stack, pending: bool, block: seq<string>): StepResult
    decreases |block|
  {
    if |block| == 0 then Next(st, pending)
    else
      match Step(env, st, block[0])
      case Next(st', pending') => EvalLines(env, st', pending', block[1..])
      case Fail(e) => Fail(e)
      case Crash => Crash
  }

  predicate NoBlankLine(block: seq<string>) {
    forall i :: 0 <= i < |block| ==> block[i] != ""
  }

  /** The block outcome `FeedBlock` produces for an evaluation result. */
  function AsBlock(r: StepResult, rest: seq<string>, atEnd: bool): BlockResult {
    match r
    case Next(st, pending) => BlockDone(st, pending, rest, atEnd)
    case Fail(e) => BlockFailed(e)
    case Crash => BlockCrashed
  }

  /** Reading a block up to its blank line evaluates exactly the lines before it, and leaves the
      lines after it unread. */
  lemma {:induction false} FeedBlockTerminated(
    env: Env, st: Stack, pending: bool, block: seq<string>, rest: seq<string>)
    requires NoBlankLine(block)
    ensures FeedBlock(env, st, pending, block + [""] + rest)
            == AsBlock(EvalLines(env, st, pending, block), rest, false)
    decreases |block|
  {
    var lines := block + [""] + rest;
    if |block| == 0 {
      assert lines == [""] + rest;
    } else {
      assert lines[0] == block[0];
      assert lines[1..] == block[1..] + [""] + rest;
      match Step(env, st, block[0])
      case Next(st', pending') =>
        FeedBlockTerminated(env, st', pending', block[1..], rest);
      case Fail(e) =>
      case Crash =>
    }
  }

  /** A block cut short by the end of input is evaluated the same way. */
  lemma {:induction false} FeedBlockAtEnd(env: Env, st: Stack, pending: bool, block: seq<string>)
    requires NoBlankLine(block)
    ensures FeedBlock(env, st, pending, block) == AsBlock(EvalLines(env, st, pending, block), [], true)
    decreases |block|
  {
    if |block| > 0 {
      match Step(env, st, block[0])
      case Next(st', pending') =>
        FeedBlockAtEnd(env, st', pending', block[1..]);
      case Fail(e) =>
      case Crash =>
    }
  }

  /** After a block evaluates, a result is due exactly when its last line was not a literal
      (an empty block keeps the flag it started with). */
  lemma {:induction false} PendingIffLastLineIsOperator(
    env: Env, st: Stack, pending: bool, block: seq<string>)
    requires EvalLines(env, st, pending, block).Next?
    ensures EvalLines(env, st, pending, block).pending
            <==> if |block| == 0 then pending else env.parse(block[|block| - 1]).None?
    decreases |block|
  {
    if |block| > 0 {
      var r := Step(env, st, block[0]);
      assert r.Next?;
      PendingIffLastLineIsOperator(env, r.stack, r.pending, block[1..]);
      if |block| > 1 {
        assert block[1..][|block| - 2] == block[|block| - 1];
      }
    }
  }

  /** The values a block of literals pushes, in order. */
  function LiteralValues(env: Env, block: seq<string>): seq<real>
    requires forall i :: 0 <= i < |block| ==> env.parse(block[i]).Some?
  {
    if |block| == 0 then [] else [env.parse(block[0]).value] + LiteralValues(env, block[1..])
  }

  /** A block of literals only never reports a result. */
  lemma {:induction false} LiteralsReportNothing(env: Env, st: Stack, block: seq<string>)
    requires forall i :: 0 <= i < |block| ==> env.parse(block[i]).Some?
    ensures EvalLines(env, st, false, block) == Next(st + LiteralValues(env, block), false)
    decreases |block|
  {
    if |block| > 0 {
      var v := env.parse(block[0]).value;
      LiteralsReportNothing(env, st + [v], block[1..]);
      assert [v] + LiteralValues(env, block[1..]) == LiteralValues(env, block);
      assert st + [v] + LiteralValues(env, block[1..]) == st + LiteralValues(env, block);
    }
  }

  /** An operation block that evaluates: a result is sent exactly when the last line fed was an
      operator, flagged partial when more than one value is stacked; it is the top of the stack,
      which stays in place for the next command. A block ending in `rst` crashes the worker. */
  lemma OperationBlock(
    env: Env, st: Stack, command: string, block: seq<string>, rest: seq<string>, replies: seq<Reply>)
    requires command in {"OP", "NUMERIC_OPERATION"}
    requires NoBlankLine(block)
    requires EvalLines(env, st, false, block).Next?
    ensures var st' := EvalLines(env, st, false, block).stack;
            var reported := |block| > 0 && env.parse(block[|block| - 1]).None?;
            RunCommands(env, st, [command] + block + [""] + rest, replies)
            == if !reported then RunCommands(env, st', rest, replies)
               else if |st'| == 0 then Outcome(Crashed, replies, [])
               else RunCommands(env, st', rest, replies + [Result(|st'| > 1, Top(st'))])
  {
    var lines := [command] + block + [""] + rest;
    assert lines[1..] == block + [""] + rest;
    FeedBlockTerminated(env, st, false, block, rest);
    PendingIffLastLineIsOperator(env, st, false, block);
  }

  /** A block in which a line fails sends that error block and reads nothing more. */
  lemma FailingBlock(
    env: Env, st: Stack, command: string, block: seq<string>, rest: seq<string>, replies: seq<Reply>)
    requires command in {"OP", "NUMERIC_OPERATION"}
    requires NoBlankLine(block)
    requires EvalLines(env, st, false, block).Fail?
    ensures var e := EvalLines(env, st, false, block).err;
            RunCommands(env, st, [command] + block + [""] + rest, replies)
            == Outcome(Errored(e), replies + [ErrorReply(e)], [])
  {
    var lines := [command] + block + [""] + rest;
    assert lines[1..] == block + [""] + rest;
    FeedBlockTerminated(env, st, false, block, rest);
  }

  /** A block in which a line crashes the worker sends nothing more and reads nothing more. */
  lemma CrashingBlock(
    env: Env, st: Stack, command: string, block: seq<string>, rest: seq<string>, replies: seq<Reply>)
    requires command in {"OP", "NUMERIC_OPERATION"}
    requires NoBlankLine(block)
    requires EvalLines(env, st, false, block).Crash?
    ensures RunCommands(env, st, [command] + block + [""] + rest, replies)
            == Outcome(Crashed, replies, [])
  {
    var lines := [command] + block + [""] + rest;
    assert lines[1..] == block + [""] + rest;
    FeedBlockTerminated(env, st, false, block, rest);
  }

  /** `ACTIVE` does nothing, `QUIT` stops with nothing sent, and any other non-operation command
      is the error 200 with no detail. */
  lemma Commands(env: Env, st: Stack, command: string, rest: seq<string>, replies: seq<Reply>)
    ensures RunCommands(env, st, ["ACTIVE"] + rest, replies) == RunCommands(env, st, rest, replies)
    ensures RunCommands(env, st, ["QUIT"] + rest, replies) == Outcome(Quit, replies, st)
    ensures command !in {"OP", "NUMERIC_OPERATION", "ACTIVE", "QUIT"} ==>
              RunCommands(env, st, [command] + rest, replies)
              == Outcome(Errored(SessionError(WrongMessageType, None)),
                         replies + [ErrorReply(SessionError(WrongMessageType, None))], [])
  {
    assert (["ACTIVE"] + rest)[1..] == rest;
  }

  /** The block outcome once more input follows: a block that stopped before the end of input
      reads the same lines and leaves the extra ones unread. */
  function Extended(r: BlockResult, extra: seq<string>): BlockResult {
    match r
    case BlockDone(st, pending, rest, atEnd) => BlockDone(st, pending, rest + extra, atEnd)
    case _ => r
  }

  lemma {:induction false} FeedBlockIgnoresLaterInput(
    env: Env, st: Stack, pending: bool, lines: seq<string>, extra: seq<string>)
    requires !(FeedBlock(env, st, pending, lines).BlockDone? && FeedBlock(env, st, pending, lines).atEnd)
    ensures FeedBlock(env, st, pending, lines + extra) == Extended(FeedBlock(env, st, pending, lines), extra)
    decreases |lines|
  {
    assert |lines| > 0;
    assert (lines + extra)[0] == lines[0];
    assert (lines + extra)[1..] == lines[1..] + extra;
    if lines[0] != "" {
      match Step(env, st, lines[0])
      case Next(st', pending') =>
        FeedBlockIgnoresLaterInput(env, st', pending', lines[1..], extra);
      case Fail(e) =>
      case Crash =>
    }
  }

  /** After `QUIT` or an error no further input line is read: appending input changes nothing. */
  lemma {:induction false} NothingReadAfterStop(
    env: Env, st: Stack, lines: seq<string>, replies: seq<Reply>, extra: seq<string>)
    requires RunCommands(env, st, lines, replies).ending.Quit?
          || RunCommands(env, st, lines, replies).ending.Errored?
    ensures RunCommands(env, st, lines + extra, replies) == RunCommands(env, st, lines, replies)
    decreases |lines|
  {
    assert |lines| > 0;
    assert (lines + extra)[0] == lines[0];
    assert (lines + extra)[1..] == lines[1..] + extra;
    var command := lines[0];
    if command == "NUMERIC_OPERATION" || command == "OP" {
      var b := FeedBlock(env, st, false, lines[1..]);
      if b.BlockDone? {
        if b.atEnd {
          // the block ran into the end of input, so the session cannot have stopped on QUIT
          // or an error
          assert false;
        }
        FeedBlockIgnoresLaterInput(env, st, false, lines[1..], extra);
        if b.pending && |b.stack| > 0 {
          NothingReadAfterStop(env, b.stack, b.rest, replies + [Report(b.stack).value], extra);
        } else if !b.pending {
          NothingReadAfterStop(env, b.stack, b.rest, replies, extra);
        }
      } else {
        FeedBlockIgnoresLaterInput(env, st, false, lines[1..], extra);
      }
    } else if command == "ACTIVE" {
      NothingReadAfterStop(env, st, lines[1..], replies, extra);
    }
  }

  /** For a whole connection: once the session has quit or failed, whatever the client sends
      afterwards is never read and changes neither the replies nor the ending. */
  lemma ServeStopsReading(env: Env, lines: seq<string>, extra: seq<string>)
    requires Serve(env, lines).ending.Quit? || Serve(env, lines).ending.Errored?
    ensures Serve(env, lines + extra) == Serve(env, lines)
  {
    NothingReadAfterStop(env, [], lines, [Greeting], extra);
  }
}

=== FILE: worker.dfy ===
/** `ServerWorker.run` (lines 144-189) written as Java writes it: two nested loops reading one
    line at a time, a flag for QUIT, and early exits for the error and crash paths. Each method
    is proved to compute what the functional session of module Session describes. */
module Worker {
  import opened Opt
  import opened Errors
  import opened Evaluator
  import opened Session

  /** The inner `while` of `run` (lines 166-169): feed lines until an empty line or the end of
      input, remembering whether the last line fed asked for a result. */
  method ReadBlock(env: Env, stack: Stack, input: seq<string>) returns (r: BlockResult)
    ensures r == FeedBlock(env, stack, false, input)
  {
    var st := stack;
    var sendResult := false;
    var i := 0;
    while i < |input| && input[i] != ""
      invariant 0 <= i <= |input|
      invariant FeedBlock(env, st, sendResult, input[i..]) == FeedBlock(env, stack, false, input)
    {
      match Step(env, st, input[i]) {
        case Fail(e) =>
          return BlockFailed(e);
        case Crash =>
          return BlockCrashed;
        case Next(st', pending) =>
          st := st';
          sendResult := pending;
      }
      i := i + 1;
    }
    if i == |input| {
      r := BlockDone(st, sendResult, [], true);
    } else {
      r := BlockDone(st, sendResult, input[i + 1..], false);
    }
  }

  /** The whole of `run`: greeting, command loop, and the terminal error path that clears the
      stack and sends one error block. */
  method Run(env: Env, input: seq<string>) returns (ending: Ending, replies: seq<Reply>, stack: Stack)
    ensures Outcome(ending, replies, stack) == Serve(env, input)
  {
    replies := [Greeting];
    stack := [];
    var remaining := input;
    var quit := false;
    while !quit && |remaining| > 0
      invariant !quit ==> RunCommands(env, stack, remaining, replies) == Serve(env, input)
      invariant quit ==> Outcome(Quit, replies, stack) == Serve(env, input)
      decreases |remaining|
    {
      var line := remaining[0];
      remaining := remaining[1..];
      if line == "NUMERIC_OPERATION" || line == "OP" {
        var block := ReadBlock(env, stack, remaining);
        match block {
          case BlockFailed(e) =>
            stack := [];
            return Errored(e), replies + [ErrorReply(e)], stack;
          case BlockCrashed =>
            return Crashed, replies, [];
          case BlockDone(st', sendResult, rest, _) =>
            stack := st';
            remaining := rest;
            if sendResult {
              if |stack| == 0 {
                return Crashed, replies, stack;
              }
              replies := replies + [Result(|stack| > 1, Top(stack))];
            }
        }
      } else if line == "ACTIVE" {
      } else if line == "QUIT" {
        quit := true;
      } else {
        var e := MakeError(WrongMessageType, None);
        stack := [];
        return Errored(e), replies + [ErrorReply(e)], stack;
      }
    }
    ending := if quit then Quit else InputClosed;
  }
}
